=== FILE: README.md ===
# Napster-style P2P file sharing: the index server and the peer's protocol logic

This project models the protocol core of a small Napster-style peer-to-peer
system written in Python, and proves properties of the model. The system has
two parts:

- an index server, which keeps `files_index`, a dict from filename to the
  list of peer addresses that registered that file, and answers `register`
  and `search` requests;
- a peer, which registers its shared files with the index server, searches
  the index, serves files to other peers, and downloads files from them.

What is modelled:

- **The server's request handler** (`p2p_server.py`, lines 28-54),
  `IndexServer.Handle`. A request is the result of `.decode()` and
  `json.loads`: not UTF-8, not JSON, too deeply nested for `json.loads`
  (a RecursionError, not a JSONDecodeError, which a 1024-byte body of `[`
  can cause before Python 3.12), or a decoded JSON value (`Json`). The
  handler maps the current `files_index` and one request to the new
  `files_index` and the payloads handed to `conn.send`, in order. Python's
  semantics are kept where they decide the outcome:
  - `v[key]` raises on a missing key and on a value that is not a dict;
  - a `for` loop over `files` walks a list's items, a string's characters
    or a dict's keys, and raises on anything else;
  - dict keys must be hashable, and `True`/`1` and `False`/`0` name the
    same entry;
  - the log lines after each `conn.send` can raise too, so one request can
    get two sends, for example `OK` followed by `Server error`.
- **`files_index`** (`FileIndex`) is an association list in insertion order:
  - `setdefault(f, []).append(a)` is `FileIndex.Register`;
  - the search comprehension is `FileIndex.Matching`;
  - Python's substring test `q in k` is `Text.Contains`, proved equal to
    "`q` occurs in `k`".
- **The responder** (`p2p_client.py`, lines 42-52): `FileTransfer.Serve`
  and `FileTransfer.SendFile`. They send `FILE_NOT_FOUND`, or `OK` followed
  by the file in reads of at most 8192 bytes.
- **The downloader** (`p2p_client.py`, lines 108-126):
  - `PeerAddress.ParseAddress` models `split(':')` and `int()`;
  - `FileTransfer.Download` models the interpretation of what the
    connection delivers;
  - a `Connection` value stands for the network: refused, or the sequence
    of blocks the `recv` calls return, possibly ending in a reset.
- **The peer's client side** toward the server (`p2p_client.py`, lines
  77-104): `PeerClient.RegisterRequest` and `PeerClient.SearchRequest` are
  run against the server model.

Behaviour of the code worth knowing before reading the table:

- Peer addresses are `host:port` over TCP (`localhost:<port>` when
  registering). `PeerAddress.TransportPrefixRejected` shows that a
  three-part `transport:host:port` address fails to parse.
- A register request without `ip` can leave a key holding an empty list:
  `setdefault` has already run when `request['ip']` raises
  (`IndexServer.RegisterMissingIp`).
- Registration can stop part-way: an unhashable filename or a missing `ip`
  ends the loop, and the reply is `Server error`
  (`IndexServer.RegisterStopsAtUnhashable`).
- `int()` skips tab, LF, VT, FF, CR and space around the digits, and the
  non-ASCII Unicode spaces such as U+00A0 (`Text.IntSkipsWhitespace`). It
  never skips the separators U+001C..U+001F, even though Python's
  `str.isspace` counts them as spaces (`Text.IntKeepsSeparators`).
- The download can lose or misread bytes; see Findings.

## Model

| member | source | states |
|---|---|---|
| Text.ContainsIsOccurs | p2p_server.py:40 | `q in k` on two strings holds exactly when `q` occurs in `k` as a contiguous run at some position, in both directions |
| Text.JoinSplit | p2p_client.py:108 | joining the pieces `split(':')` returns, with `:` between them, gives back the address |
| Text.SplitJoin | p2p_client.py:108 | splitting a `:`-join of colon-free pieces gives back exactly those pieces |
| Text.ParseIntOfString | p2p_client.py:109 | `int()` reads the decimal text of any integer back as that integer (the port in `localhost:<port>` survives the trip) |
| JsonValue.Field | p2p_server.py:33 | `request[key]` yields a member of the dict under that key; it raises exactly when the value is not a dict or no member has that key |
| FileIndex.SetDefault | p2p_server.py:35 | after `setdefault(f, [])` the key is present, the dict is still a dict, and at most one new entry was added, after all the old ones |
| FileIndex.SetDefaultKeepsLists | p2p_server.py:35 | `setdefault` changes no stored list, and the only key it can add is `f` |
| FileIndex.AppendAtLists | p2p_server.py:35 | `.append(a)` adds `a` at the end of `f`'s list and changes no other list or key |
| FileIndex.Register | p2p_server.py:35 | one registration keeps every existing key in its place with its old list as a prefix; a new filename is added last, holding just `a` |
| FileIndex.RegisterLists | p2p_server.py:35 | after one registration the list under any key is the old list plus `a` exactly when the key equals `f` in Python's sense; the keys are the old keys plus `f` |
| FileIndex.Matching | p2p_server.py:40 | the search result is the index with some entries left out, order kept, and an entry is in it exactly when it is in the index and its key contains the query |
| FileIndex.MatchingEmptyQuery | p2p_server.py:40 | the empty query selects the whole index |
| IndexServer.RegisterAll | p2p_server.py:34-35 | the registration loop, however far it gets, leaves a valid dict that extends the old one: no key removed or moved, no list shortened |
| IndexServer.HandleRegister | p2p_server.py:33-37 | the register branch only grows the index, even when it fails part-way |
| IndexServer.HandleSearch | p2p_server.py:39-42 | a search never changes the index |
| IndexServer.Handle | p2p_server.py:28-54 | every request gets at least one send and leaves a valid, only-grown index; only a register can change the index; a body that is not JSON gets exactly `Invalid JSON format`, and nothing else gets it first; bytes that are not UTF-8 and JSON nested too deeply get exactly `Server error`; exactly `Invalid command` is sent exactly for a dict whose command is neither `register` nor `search` |
| IndexServer.RegisterAllCompletes | p2p_server.py:34-35 | with `ip` present and every filename hashable, the loop runs to the end |
| IndexServer.RegisterAllLists | p2p_server.py:34-35 | a completed loop appends the address to each key's list once per listing of that key (duplicates included); the keys afterwards are the old ones plus those listed |
| IndexServer.RegisterAllStringKeys | p2p_server.py:34-35 | registering string filenames keeps every key a string, so later searches can scan it |
| IndexServer.RegisterWellFormed | p2p_server.py:33-37 | a register request with iterable, hashable `files` and an `ip` is answered with exactly `OK`, and every list becomes the old list plus one address per listing |
| IndexServer.RegisterBodyLists | p2p_server.py:31-36 | the usual request `{"command": "register", "files": [...], "ip": a}` runs the loop over its filenames, and each list gains one `a` per listing |
| IndexServer.RegisterTwiceAccumulates | p2p_server.py:35 | two peers registering the same new filename one after the other leave it listing both addresses, in registration order |
| IndexServer.RegisterStringFiles | p2p_server.py:34-35 | a register whose `files` is a string, not a list, loops over its characters: the reply is exactly `OK`, and each one-character key gains the address once per occurrence of that character in the string |
| IndexServer.RegisterDuplicateListing | p2p_server.py:34-35 | a filename listed twice in one request receives the address twice |
| IndexServer.RegisterMissingIp | p2p_server.py:34-37 | without `ip`: no filenames gives `OK` then `Server error`, from the log line; otherwise the first listed filename, if hashable, is left in the index (an unhashable first filename leaves nothing), with an empty list if it was new, and the reply is `Server error` |
| IndexServer.RegisterStopsAtUnhashable | p2p_server.py:34-36 | an unhashable filename stops the loop with `Server error`, and what the filenames before it registered stays |
| IndexServer.SearchSelects | p2p_server.py:39-41 | on an index with string keys, a string query gets one reply holding exactly the entries whose key contains the query, in index order with lists unchanged; the empty query returns the whole index |
| IndexServer.RepeatIsStable | p2p_server.py:39-46 | a request that is not a register leaves the index as it was, so repeating it gets the same reply |
| IndexServer.ShapeErrors | p2p_server.py:33-53 | a body with no `command`, or a register whose `files` is missing or not iterable, gets exactly `Server error` and changes nothing |
| PeerAddress.ParseAdvertised | p2p_client.py:108-109 | the address a peer registers, `localhost:<port>`, parses back to `localhost` and the same port |
| PeerAddress.ParseAddressExactly | p2p_client.py:108-109 | an address parses to `(host, port)` exactly when it is `host`, one colon, and a colon-free rest that `int()` reads as `port` |
| PeerAddress.SeparatorBeforePortRejected | p2p_client.py:108-109 | `localhost:` followed by U+001C and `5` is refused, with or without a trailing U+00A0, because `int()` never skips U+001C |
| Text.IntSkipsWhitespace | p2p_client.py:109 | for every integer `n`, `int()` reads `str(n)` back as `n` with any mix of tab, LF, VT, FF, CR, space and non-ASCII Unicode spaces (such as U+00A0) before and after it |
| Text.IntKeepsSeparators | p2p_client.py:109 | `int()` raises on every string that starts with one of the separators U+001C..U+001F, whatever follows |
| PeerAddress.TransportPrefixRejected | p2p_client.py:108 | an address in the three-part `transport:host:port` form is refused |
| FileTransfer.SendFile | p2p_client.py:50-52 | the file is sent in pieces that add up to the file; each piece is non-empty and at most 8192 bytes, and only the last can be short |
| FileTransfer.Serve | p2p_client.py:45-52 | a name not shared gets exactly `FILE_NOT_FOUND`; a shared file gets `OK` and then its content, and the sends add up to that response |
| FileTransfer.UntilEmpty | p2p_client.py:122-123 | the download loop writes the received blocks, in order, up to the first empty one |
| FileTransfer.DownloadRefusesAddress | p2p_client.py:108-109 | a malformed address fails, whatever the network would have done |
| FileTransfer.DownloadReadsAfterFirst | p2p_client.py:115-126 | once the address parses to a port in 0..65535 and the stream ends without a reset: the download fails without writing exactly when the first block is `FILE_NOT_FOUND`; otherwise it succeeds and writes the later blocks |
| FileTransfer.DownloadAsWritten | p2p_client.py:115-123 | for a served file the download writes the response minus its first block, which is the file exactly when that first block was `OK` alone |
| FileTransfer.DownloadLosesCoalescedBytes | p2p_client.py:115-123 | `OK` and a five-byte file arriving in one block give a successful download of an empty file |
| FileTransfer.DownloadMisreadsSplitNotFound | p2p_client.py:115-118 | `FILE_NOT_FOUND` arriving in two blocks gives a successful download of the second block |
| FileTransfer.DownloadFramedRoundTrip | p2p_client.py:106-126 | the corrected download: however the response is cut into blocks, a shared file comes out byte for byte and a missing one fails and writes nothing |
| PeerClient.ClientRegistrationAccepted | p2p_client.py:77-88 | the peer's startup registration is answered with exactly `OK`; the peer logs success with its file count; every shared name then lists `localhost:<port>` last |
| PeerClient.ClientSearchFinds | p2p_client.py:97-101 | a client search against an index of string keys returns the matching entries with their address lists, in index order |
| IndexServer.FirstRegistration | p2p_server.py:34-35 | one filename registered with an empty index makes a one-entry index holding just the address |
| PeerClient.ScenarioRegisterThenSearch | p2p_client.py:77-101 | a peer on port 6001 registers `a.txt` with an empty index; a search for `a` then finds `a.txt` at `localhost:6001` |

## Left out

- Sockets, the accept loops, threads, `conn.close`, logging output, `main`
  and the command line are left out. Each handler is a function from the
  received request to the sends it makes.
- The JSON text codec (`json.loads` and `json.dumps` on text) is left out.
  A request is the decoded value, and a search reply is the result index.
  JSON floats and objects with repeated keys are left out too.
- The server's `recv(1024)` is left out: a request longer than 1024 bytes
  arrives truncated. The model starts from whatever request the received
  bytes decode to.
- The client's `recv(1024)` of the server's reply is left out.
  `PeerClient.ReplyText` joins all the sends. A reply split across
  segments, or longer than 1024 bytes, is not modelled.
- `conn.send` returning before it has written everything is left out.
  Every send is taken to be complete.
- The file system is left out: `SHARED_FOLDER / filename`, `is_file()`, the
  directory listing of shared names, and opening and writing the download
  target. Shared files are a map from name to bytes, and the peer's file
  list is a parameter. Errors opening the target, and path traversal
  through the filename, are not modelled.
- Name resolution and `connect` are a `Connection` parameter. The only part
  of `connect` kept is that it raises for a port outside 0..65535.
- Strings are sequences of Unicode scalar values, so the lone surrogates
  that `json.loads` produces from escapes such as `\ud800` cannot be
  represented.
- Text.ParseInt accepts only ASCII digits, because the model has no Unicode
  tables. Python's `int()` also accepts other Unicode decimal digits.
- Text.ParseInt has no limit on the number of digits. Python's `int()` and
  `str()` raise ValueError on a decimal integer of more than 4300 digits
  (Python 3.11 and the 3.8-3.10 security releases). No outcome here depends
  on it: the address comes in a reply of at most 1024 bytes, and a longer
  port would fail the 0..65535 check anyway. `Text.ParseIntOfString` is
  therefore stated for all integers.
- `register_files` and `search_files` are modelled from the point where the
  request is built. Their `connect` and `send` failures reach the same
  logged branch as a failed reply and are not modelled separately.

## Findings

| source | as written | input that shows it | evidently intended | confidence | as-written member | corrected member |
|---|---|---|---|---|---|---|
| p2p_client.py:115-123 | the whole first `recv(1024)` block is thrown away unless it equals `FILE_NOT_FOUND`; only the later blocks are written | the responder's `OK` and a five-byte file arrive in one block | remove exactly the two `OK` bytes and write everything after them | not executed | FileTransfer.DownloadLosesCoalescedBytes | FileTransfer.DownloadFramedRoundTrip |
| p2p_client.py:115-118 | "not found" is decided by comparing one block with `FILE_NOT_FOUND` | `FILE_NOT_FOUND` arrives as `FILE_` and then `NOT_FOUND` | read the response to the end of the stream, then compare the whole of it | not executed | FileTransfer.DownloadMisreadsSplitNotFound | FileTransfer.DownloadFramedRoundTrip |

=== FILE: address.dfy ===
/**
 * The peer address a node advertises when it registers, and the way the
 * download side takes an address apart again.
 */
module PeerAddress {
  import opened Base
  import Text

  /** `f'localhost:{self.file_server_port}'`, the `ip` a peer registers with. */
  function Advertised(port: int): string
  {
    "localhost:" + Text.IntToString(port)
  }

  /**
   * `host, port = peer_addr.split(':'); port = int(port)`: exactly two
   * pieces, the second an integer; anything else raises ValueError (None).
   */
  function ParseAddress(addr: string): Option<(string, int)>
  {
    var pieces := Text.Split(addr, ':');
    if |pieces| != 2 then None
    else
      match Text.ParseInt(pieces[1])
      case None => None
      case Some(p) => Some((pieces[0], p))
  }

  /** The address a peer advertises parses back to `localhost` and the same port. */
  lemma ParseAdvertised(port: int)
    ensures ParseAddress(Advertised(port)) == Some(("localhost", port))
  {
    var digits := Text.IntToString(port);
    Text.IntToStringHasNoColon(port);
    assert Text.Join(["localhost", digits], ':') == "localhost" + [':'] + digits;
    assert "localhost" + [':'] + digits == Advertised(port);
    Text.SplitJoin(["localhost", digits], ':');
    Text.ParseIntOfString(port);
  }

  /**
   * An address parses to `(host, port)` exactly when it is `host`, one
   * colon, and a colon-free piece that `int()` reads as `port`. So it is
   * rejected when it has no colon or several, or when what follows the
   * colon is not an integer.
   */
  lemma ParseAddressExactly(addr: string, host: string, port: int)
    ensures ParseAddress(addr) == Some((host, port))
            <==> exists d :: addr == host + [':'] + d && ':' !in host && ':' !in d
                             && Text.ParseInt(d) == Some(port)
  {
    var pieces := Text.Split(addr, ':');
    Text.JoinSplit(addr, ':');
    Text.SplitPiecesFree(addr, ':');
    if ParseAddress(addr) == Some((host, port)) {
      var d := pieces[1];
      assert Text.Join(pieces, ':') == pieces[0] + [':'] + Text.Join(pieces[1..], ':');
      assert addr == host + [':'] + d;
    }
    if exists d :: addr == host + [':'] + d && ':' !in host && ':' !in d
                   && Text.ParseInt(d) == Some(port) {
      var d :| addr == host + [':'] + d && ':' !in host && ':' !in d
               && Text.ParseInt(d) == Some(port);
      assert Text.Join([host, d], ':') == addr;
      Text.SplitJoin([host, d], ':');
    }
  }

  /** A `transport:host:port` address splits into three pieces and is refused. */
  lemma TransportPrefixRejected(transport: string, host: string, port: int)
    requires ':' !in transport && ':' !in host
    ensures ParseAddress(transport + ":" + host + ":" + Text.IntToString(port)) == None
  {
    var digits := Text.IntToString(port);
    Text.IntToStringHasNoColon(port);
    var addr := transport + ":" + host + ":" + digits;
    assert Text.Join([host, digits], ':') == host + [':'] + digits;
    assert [transport, host, digits][1..] == [host, digits];
    assert Text.Join([transport, host, digits], ':') == transport + [':'] + (host + [':'] + digits);
    assert Text.Join([transport, host, digits], ':') == addr;
    Text.SplitJoin([transport, host, digits], ':');
  }

  /**
   * A port preceded by U+001C is refused, whether or not a non-ASCII space
   * follows it: `int()` never skips U+001C.
   */
  lemma SeparatorBeforePortRejected()
    ensures ParseAddress("localhost:" + [0x1C as char] + "5") == None
    ensures ParseAddress("localhost:" + [0x1C as char] + "5" + [0xA0 as char]) == None
  {
    Text.IntKeepsSeparators(0x1C as char, "5");
    Text.IntKeepsSeparators(0x1C as char, "5" + [0xA0 as char]);
    var d := [0x1C as char] + "5";
    assert Text.Join(["localhost", d], ':') == "localhost:" + d;
    Text.SplitJoin(["localhost", d], ':');
    assert "localhost:" + [0x1C as char] + "5" == "localhost:" + d;
    var w := [0x1C as char] + "5" + [0xA0 as char];
    assert w == [0x1C as char] + ("5" + [0xA0 as char]);
    assert Text.Join(["localhost", w], ':') == "localhost:" + w;
    Text.SplitJoin(["localhost", w], ':');
    assert "localhost:" + [0x1C as char] + "5" + [0xA0 as char] == "localhost:" + w;
  }
}

=== FILE: base.dfy ===
/** Small shared vocabulary: optional values, bytes and byte blocks. */
module Base {

  /** A value that may be absent; used wherever the source raises and catches. */
  datatype Option<+T> = None | Some(value: T)

  /** One octet, as carried by a socket. */
  newtype byte = x: int | 0 <= x < 256

  type Bytes = seq<byte>

  /** The bytes of a sequence of blocks laid end to end. */
  function Concat(blocks: seq<Bytes>): Bytes
  {
    if |blocks| == 0 then [] else blocks[0] + Concat(blocks[1..])
  }

  lemma {:induction false} ConcatAppend(blocks: seq<Bytes>, b: Bytes)
    ensures Concat(blocks + [b]) == Concat(blocks) + b
  {
    if |blocks| == 0 {
      assert blocks + [b] == [b];
    } else {
      assert (blocks + [b])[1..] == blocks[1..] + [b];
      ConcatAppend(blocks[1..], b);
    }
  }
}

=== FILE: file_index.dfy ===
/**
 * The index server's `files_index`: a Python dict from filename to the list
 * of peer addresses that registered it. A dict keeps its keys in the order
 * they were first inserted, so the index is an association list whose order
 * is that insertion order.
 */
module FileIndex {
  import opened JsonValue
  import Text

  datatype Entry = Entry(key: Json, addrs: seq<Json>)

  type Index = seq<Entry>

  /** Some entry is stored under a key Python treats as equal to `k`. */
  predicate HasKey(idx: Index, k: Json)
  {
    exists i :: 0 <= i < |idx| && SameKey(idx[i].key, k)
  }

  /** What any dict satisfies: hashable keys, no two of them equal. */
  predicate Valid(idx: Index)
  {
    && (forall i :: 0 <= i < |idx| ==> Hashable(idx[i].key))
    && (forall i, j :: 0 <= i < j < |idx| ==> !SameKey(idx[i].key, idx[j].key))
  }

  /** Every key is a string, as it is when every registration listed string filenames. */
  predicate StringKeys(idx: Index)
  {
    forall i :: 0 <= i < |idx| ==> idx[i].key.JStr?
  }

  /**
   * `next` is `prev` grown: the same keys first, in the same order, each
   * with its old list as a prefix of its new one.
   */
  predicate Extends(prev: Index, next: Index)
  {
    && |prev| <= |next|
    && forall i :: 0 <= i < |prev| ==> next[i].key == prev[i].key && prev[i].addrs <= next[i].addrs
  }

  lemma ExtendsTransitive(a: Index, b: Index, c: Index)
    requires Extends(a, b) && Extends(b, c)
    ensures Extends(a, c)
  {
    forall i | 0 <= i < |a|
      ensures c[i].key == a[i].key && a[i].addrs <= c[i].addrs
    {
      assert b[i].addrs <= c[i].addrs;
    }
  }

  /** The list stored under `k`; the empty list when `k` is absent. */
  function Lookup(idx: Index, k: Json): seq<Json>
  {
    if |idx| == 0 then []
    else if SameKey(idx[0].key, k) then idx[0].addrs
    else Lookup(idx[1..], k)
  }

  lemma {:induction false} LookupAt(idx: Index, i: nat, k: Json)
    requires Valid(idx)
    requires i < |idx| && SameKey(idx[i].key, k)
    ensures Lookup(idx, k) == idx[i].addrs
  {
    if i > 0 {
      assert !SameKey(idx[0].key, idx[i].key);
      assert idx[1..][i - 1] == idx[i];
      LookupAt(idx[1..], i - 1, k);
    }
  }

  lemma {:induction false} LookupAbsent(idx: Index, k: Json)
    requires !HasKey(idx, k)
    ensures Lookup(idx, k) == []
  {
    if |idx| > 0 {
      assert !SameKey(idx[0].key, k);
      assert forall i :: 0 <= i < |idx[1..]| ==> idx[1..][i] == idx[i + 1];
      LookupAbsent(idx[1..], k);
    }
  }

  lemma {:induction false} LookupSnoc(idx: Index, e: Entry, k: Json)
    ensures Lookup(idx + [e], k)
            == if HasKey(idx, k) then Lookup(idx, k) else if SameKey(e.key, k) then e.addrs else []
  {
    if |idx| == 0 {
      assert idx + [e] == [e];
    } else {
      assert (idx + [e])[1..] == idx[1..] + [e];
      LookupSnoc(idx[1..], e, k);
      if !SameKey(idx[0].key, k) {
        assert HasKey(idx, k) <==> HasKey(idx[1..], k) by {
          if HasKey(idx, k) {
            var i :| 0 <= i < |idx| && SameKey(idx[i].key, k);
            assert idx[1..][i - 1] == idx[i];
          }
          if HasKey(idx[1..], k) {
            var i :| 0 <= i < |idx[1..]| && SameKey(idx[1..][i].key, k);
            assert idx[i + 1] == idx[1..][i];
          }
        }
      }
    }
  }

  /**
   * Python's `files_index.setdefault(k, [])`: afterwards `k` is present, and
   * at most one entry was added, after all the existing ones.
   */
  function SetDefault(idx: Index, k: Json): (r: Index)
    requires Valid(idx) && Hashable(k)
    ensures Valid(r) && Extends(idx, r) && HasKey(r, k)
    ensures |r| == if HasKey(idx, k) then |idx| else |idx| + 1
  {
    if HasKey(idx, k) then idx
    else
      var r := idx + [Entry(k, [])];
      assert SameKey(r[|idx|].key, k);
      r
  }

  /** `setdefault` changes no stored list, and the only key it can add is `k`. */
  lemma SetDefaultKeepsLists(idx: Index, k: Json, j: Json)
    requires Valid(idx) && Hashable(k)
    ensures Lookup(SetDefault(idx, k), j) == Lookup(idx, j)
    ensures HasKey(SetDefault(idx, k), j) <==> HasKey(idx, j) || SameKey(j, k)
  {
    if !HasKey(idx, k) {
      var e := Entry(k, []);
      var r := idx + [e];
      LookupSnoc(idx, e, j);
      if !HasKey(idx, j) {
        LookupAbsent(idx, j);
      }
      if HasKey(r, j) {
        var i :| 0 <= i < |r| && SameKey(r[i].key, j);
        if i < |idx| {
          assert SameKey(idx[i].key, j);
        }
      }
      if HasKey(idx, j) {
        var i :| 0 <= i < |idx| && SameKey(idx[i].key, j);
        assert SameKey(r[i].key, j);
      }
      if SameKey(j, k) {
        assert SameKey(r[|idx|].key, j);
      }
    }
  }

  /** `.append(a)` on the list stored under the present key `k`; keys and their order stay. */
  function AppendAt(idx: Index, k: Json, a: Json): (r: Index)
    requires Valid(idx) && HasKey(idx, k)
    ensures Valid(r) && Extends(idx, r) && |r| == |idx|
  {
    var r := seq(|idx|, i requires 0 <= i < |idx| =>
                   if SameKey(idx[i].key, k) then Entry(idx[i].key, idx[i].addrs + [a]) else idx[i]);
    assert forall i :: 0 <= i < |idx| ==> r[i].key == idx[i].key;
    r
  }

  /** The list under `k` gains `a` at its end; every other list is as it was. */
  lemma AppendAtLists(idx: Index, k: Json, a: Json, j: Json)
    requires Valid(idx) && HasKey(idx, k)
    ensures Lookup(AppendAt(idx, k, a), j) == Lookup(idx, j) + if SameKey(j, k) then [a] else []
    ensures HasKey(AppendAt(idx, k, a), j) <==> HasKey(idx, j)
  {
    var r := AppendAt(idx, k, a);
    if HasKey(idx, j) {
      var i :| 0 <= i < |idx| && SameKey(idx[i].key, j);
      LookupAt(idx, i, j);
      LookupAt(r, i, j);
      assert SameKey(r[i].key, j);
    } else {
      LookupAbsent(idx, j);
      assert !HasKey(r, j) by {
        assert forall i :: 0 <= i < |r| ==> r[i].key == idx[i].key;
      }
      LookupAbsent(r, j);
      var i :| 0 <= i < |idx| && SameKey(idx[i].key, k);
      assert !SameKey(j, k);
    }
  }

  /**
   * Python's `files_index.setdefault(f, []).append(a)`: existing keys keep
   * their places, and an absent `f` is added after them holding just `a`.
   */
  function Register(idx: Index, f: Json, a: Json): (r: Index)
    requires Valid(idx) && Hashable(f)
    ensures Valid(r) && Extends(idx, r)
    ensures HasKey(idx, f) ==> |r| == |idx|
    ensures !HasKey(idx, f) ==> |r| == |idx| + 1 && r[|idx|] == Entry(f, [a])
    ensures StringKeys(idx) && f.JStr? ==> StringKeys(r)
  {
    var s := SetDefault(idx, f);
    var r := AppendAt(s, f, a);
    assert !HasKey(idx, f) ==> r[|idx|] == Entry(f, [a]) by {
      if !HasKey(idx, f) {
        assert s == idx + [Entry(f, [])];
        assert SameKey(s[|idx|].key, f);
      }
    }
    r
  }

  /**
   * One registration appends exactly one `a` to the list of `f` and changes
   * no other list; the keys afterwards are the old ones and `f`.
   */
  lemma RegisterLists(idx: Index, f: Json, a: Json, j: Json)
    requires Valid(idx) && Hashable(f)
    ensures Lookup(Register(idx, f, a), j) == Lookup(idx, j) + if SameKey(j, f) then [a] else []
    ensures HasKey(Register(idx, f, a), j) <==> HasKey(idx, j) || SameKey(j, f)
  {
    SetDefaultKeepsLists(idx, f, j);
    AppendAtLists(SetDefault(idx, f), f, a, j);
  }

  /**
   * Order-preserving selection: `sub` is `full` with some entries left out.
   */
  predicate IsSubsequence(sub: Index, full: Index)
  {
    if |sub| == 0 then true
    else if |full| == 0 then false
    else if sub[0] == full[0] then IsSubsequence(sub[1..], full[1..])
    else IsSubsequence(sub, full[1..])
  }

  /**
   * The search comprehension `{k: v for k, v in files_index.items() if q in k}`
   * over string keys: the entries whose key contains `q`, in index order,
   * with their lists as stored.
   */
  function Matching(idx: Index, q: string): (r: Index)
    requires StringKeys(idx)
    ensures IsSubsequence(r, idx)
    ensures forall e :: e in r <==> e in idx && Text.Occurs(q, e.key.s)
  {
    if |idx| == 0 then []
    else
      var rest := Matching(idx[1..], q);
      Text.ContainsIsOccurs(idx[0].key.s, q);
      assert forall e :: e in idx <==> e == idx[0] || e in idx[1..];
      if Text.Contains(idx[0].key.s, q) then
        assert ([idx[0]] + rest)[1..] == rest;
        [idx[0]] + rest
      else rest
  }

  /** The empty query selects the whole index. */
  lemma {:induction false} MatchingEmptyQuery(idx: Index)
    requires StringKeys(idx)
    ensures Matching(idx, "") == idx
  {
    if |idx| > 0 {
      MatchingEmptyQuery(idx[1..]);
      assert [idx[0]] + idx[1..] == idx;
    }
  }

  /** The search reply as `json.dumps` renders it: each key with its address list. */
  function ToJson(idx: Index): (j: Json)
    ensures j.JObj? && |j.members| == |idx|
    ensures forall i :: 0 <= i < |idx| ==> j.members[i] == (KeyText(idx[i].key), JArr(idx[i].addrs))
  {
    JObj(seq(|idx|, i requires 0 <= i < |idx| => (KeyText(idx[i].key), JArr(idx[i].addrs))))
  }
}

=== FILE: file_transfer.dfy ===
/**
 * Peer-to-peer file transfer over one TCP connection: the responder's
 * framing (`FILE_NOT_FOUND`, or `OK` then the file in reads of at most 8192
 * bytes) and the downloader's reading of what arrives.
 */
module FileTransfer {
  import opened Base
  import opened PeerAddress

  /** The responder reads the file in pieces of this size. */
  const CHUNK: nat := 8192

  /** The downloader's first `recv` asks for at most this many bytes. */
  const FIRST_RECV: nat := 1024

  /** `b'OK'` */
  const OK_TOKEN: Bytes := [79, 75]

  /** `b'FILE_NOT_FOUND'` */
  const NOT_FOUND: Bytes := [70, 73, 76, 69, 95, 78, 79, 84, 95, 70, 79, 85, 78, 68]

  /** The files under the shared folder, by name. */
  type SharedFiles = map<string, Bytes>

  /** Everything the responder writes on the connection for a request naming `name`. */
  function Response(shared: SharedFiles, name: string): Bytes
  {
    if name in shared then OK_TOKEN + shared[name] else NOT_FOUND
  }

  // ---------------------------------------------------------------------------
  // The responder

  /**
   * `while chunk := f.read(8192): conn.send(chunk)` on a regular file: the
   * sends add up to the file, none is empty or longer than 8192 bytes, and
   * only the last can be short.
   */
  method SendFile(content: Bytes) returns (chunks: seq<Bytes>)
    ensures Concat(chunks) == content
    ensures forall i :: 0 <= i < |chunks| ==> 0 < |chunks[i]| <= CHUNK
    ensures forall i :: 0 <= i < |chunks| - 1 ==> |chunks[i]| == CHUNK
  {
    chunks := [];
    var pos := 0;
    while pos < |content|
      invariant 0 <= pos <= |content|
      invariant Concat(chunks) == content[..pos]
      invariant forall i :: 0 <= i < |chunks| ==> 0 < |chunks[i]| <= CHUNK
      invariant forall i :: 0 <= i < |chunks| - 1 ==> |chunks[i]| == CHUNK
      invariant |chunks| > 0 && pos < |content| ==> |chunks[|chunks| - 1]| == CHUNK
      decreases |content| - pos
    {
      var end := if |content| - pos < CHUNK then |content| else pos + CHUNK;
      var chunk := content[pos..end];
      ConcatAppend(chunks, chunk);
      assert content[..pos] + chunk == content[..end];
      chunks := chunks + [chunk];
      pos := end;
    }
    assert content[..pos] == content;
  }

  /**
   * One request handled by `handle_clients`: a name not in the shared set
   * gets exactly `FILE_NOT_FOUND`; a shared file gets `OK` and then its
   * content in non-empty sends of at most 8192 bytes.
   */
  method Serve(shared: SharedFiles, name: string) returns (sent: seq<Bytes>)
    ensures Concat(sent) == Response(shared, name)
    ensures name !in shared ==> sent == [NOT_FOUND]
    ensures name in shared ==>
              && |sent| >= 1 && sent[0] == OK_TOKEN
              && Concat(sent[1..]) == shared[name]
              && forall i :: 1 <= i < |sent| ==> 0 < |sent[i]| <= CHUNK
  {
    if name !in shared {
      sent := [NOT_FOUND];
      assert Concat(sent) == NOT_FOUND + Concat([]);
    } else {
      var chunks := SendFile(shared[name]);
      sent := [OK_TOKEN] + chunks;
      assert sent[1..] == chunks;
    }
  }

  // ---------------------------------------------------------------------------
  // The downloader

  /**
   * What the downloader's connection yields: refused, or accepted with the
   * results of its `recv` calls in order, `first` from `recv(1024)`, the
   * rest from `recv(8192)`. When `later` runs out before an empty block, the
   * next `recv` either reports end of stream or, with `reset`, raises.
   */
  datatype Connection =
    | Refused
    | Accepted(first: Bytes, later: seq<Bytes>, reset: bool)

  /** The boolean `download` returns, and the content of the file it wrote, if it opened one. */
  datatype DownloadResult = DownloadResult(ok: bool, written: Option<Bytes>)

  /** The blocks the `while chunk := s.recv(8192)` loop writes: those before the first empty one. */
  function UntilEmpty(blocks: seq<Bytes>): (r: seq<Bytes>)
    ensures |r| <= |blocks|
    ensures forall i :: 0 <= i < |r| ==> r[i] == blocks[i] && |r[i]| > 0
    ensures |r| < |blocks| ==> blocks[|r|] == []
  {
    if |blocks| == 0 || blocks[0] == [] then []
    else [blocks[0]] + UntilEmpty(blocks[1..])
  }

  /**
   * `Peer.download` as written. A malformed address or a port outside
   * 0..65535 fails before connecting; a first block equal to
   * `FILE_NOT_FOUND` fails without writing; any other first block is
   * dropped, and every later block is written until end of stream.
   */
  function Download(name: string, addr: string, conn: Connection): DownloadResult
  {
    match ParseAddress(addr)
    case None => DownloadResult(false, None)
    case Some((host, port)) =>
      if !(0 <= port < 65536) then DownloadResult(false, None)
      else
        match conn
        case Refused => DownloadResult(false, None)
        case Accepted(first, later, reset) =>
          if first == NOT_FOUND then DownloadResult(false, None)
          else
            var kept := UntilEmpty(later);
            DownloadResult(!(reset && |kept| == |later|), Some(Concat(kept)))
  }

  /**
   * A stream of bytes arriving as `first` then `later`: the blocks add up
   * to the stream, respect the sizes asked of `recv`, and none is empty
   * (an empty block would mean the stream had ended).
   */
  predicate Delivers(stream: Bytes, first: Bytes, later: seq<Bytes>)
  {
    && first + Concat(later) == stream
    && |first| <= FIRST_RECV
    && (|stream| > 0 ==> |first| > 0)
    && forall i :: 0 <= i < |later| ==> 0 < |later[i]| <= CHUNK
  }

  lemma {:induction false} UntilEmptyOfNonEmpty(blocks: seq<Bytes>)
    requires forall i :: 0 <= i < |blocks| ==> |blocks[i]| > 0
    ensures UntilEmpty(blocks) == blocks
  {
    if |blocks| > 0 {
      UntilEmptyOfNonEmpty(blocks[1..]);
    }
  }

  /** A malformed address fails whatever the network would have done: nothing is dialled. */
  lemma DownloadRefusesAddress(name: string, addr: string, c1: Connection, c2: Connection)
    requires ParseAddress(addr).None?
    ensures Download(name, addr, c1) == Download(name, addr, c2) == DownloadResult(false, None)
  {
  }

  /**
   * Against an address with a port in 0..65535, and a stream that ends
   * without a reset, `download` fails without writing exactly when the first
   * block is `FILE_NOT_FOUND`; otherwise it succeeds and the file holds the
   * later blocks.
   */
  lemma DownloadReadsAfterFirst(name: string, addr: string, host: string, port: int,
                                first: Bytes, later: seq<Bytes>)
    requires ParseAddress(addr) == Some((host, port)) && 0 <= port < 65536
    requires forall i :: 0 <= i < |later| ==> |later[i]| > 0
    ensures first == NOT_FOUND ==>
              Download(name, addr, Accepted(first, later, false)) == DownloadResult(false, None)
    ensures first != NOT_FOUND ==>
              Download(name, addr, Accepted(first, later, false)) == DownloadResult(true, Some(Concat(later)))
  {
    UntilEmptyOfNonEmpty(later);
  }

  /**
   * What `download` writes for a file the responder serves: the response
   * with its first block cut off. It equals the file exactly when that first
   * block was `OK` and nothing more.
   */
  lemma DownloadAsWritten(shared: SharedFiles, name: string, addr: string, host: string, port: int,
                          first: Bytes, later: seq<Bytes>)
    requires ParseAddress(addr) == Some((host, port)) && 0 <= port < 65536
    requires name in shared
    requires Delivers(Response(shared, name), first, later)
    ensures Download(name, addr, Accepted(first, later, false)).ok
    ensures Download(name, addr, Accepted(first, later, false)).written
            == Some(Response(shared, name)[|first|..])
    ensures Download(name, addr, Accepted(first, later, false)).written == Some(shared[name])
            <==> |first| == 2
  {
    var stream := Response(shared, name);
    UntilEmptyOfNonEmpty(later);
    assert first[0] == stream[0] == 79;
    assert stream[|first|..] == Concat(later);
    if |first| == 2 {
      assert stream[2..] == shared[name];
    }
  }

  /**
   * Counterexample: `OK` and a five-byte file arrive in one block. The
   * download reports success and writes an empty file.
   */
  lemma DownloadLosesCoalescedBytes(addr: string, host: string, port: int)
    requires ParseAddress(addr) == Some((host, port)) && 0 <= port < 65536
    ensures var hello: Bytes := [104, 101, 108, 108, 111];
            var shared := map["a.txt" := hello];
            && Delivers(Response(shared, "a.txt"), OK_TOKEN + hello, [])
            && Download("a.txt", addr, Accepted(OK_TOKEN + hello, [], false)) == DownloadResult(true, Some([]))
  {
  }

  /**
   * Counterexample: `FILE_NOT_FOUND` arrives split after `FILE_`. The
   * download reports success and writes `NOT_FOUND` as the file.
   */
  lemma DownloadMisreadsSplitNotFound(addr: string, host: string, port: int)
    requires ParseAddress(addr) == Some((host, port)) && 0 <= port < 65536
    ensures && Delivers(Response(map[], "a.txt"), NOT_FOUND[..5], [NOT_FOUND[5..]])
            && Download("a.txt", addr, Accepted(NOT_FOUND[..5], [NOT_FOUND[5..]], false))
               == DownloadResult(true, Some(NOT_FOUND[5..]))
  {
    assert NOT_FOUND[..5] + NOT_FOUND[5..] == NOT_FOUND;
    assert NOT_FOUND[..5] != NOT_FOUND;
    assert Concat([NOT_FOUND[5..]]) == NOT_FOUND[5..] + Concat([]);
  }

  // ---------------------------------------------------------------------------
  // The download as the protocol intends it

  /**
   * `download` reading the response as one stream, whatever blocks it came
   * in: the whole of it must be `FILE_NOT_FOUND`, or `OK` followed by the
   * file, which is written only once the stream has ended cleanly.
   */
  function DownloadFramed(name: string, addr: string, conn: Connection): DownloadResult
  {
    match ParseAddress(addr)
    case None => DownloadResult(false, None)
    case Some((host, port)) =>
      if !(0 <= port < 65536) then DownloadResult(false, None)
      else
        match conn
        case Refused => DownloadResult(false, None)
        case Accepted(first, later, reset) =>
          var kept := UntilEmpty(later);
          var stream := first + Concat(kept);
          if reset && |kept| == |later| then DownloadResult(false, None)
          else if stream == NOT_FOUND then DownloadResult(false, None)
          else if |stream| >= 2 && stream[..2] == OK_TOKEN then DownloadResult(true, Some(stream[2..]))
          else DownloadResult(false, None)
  }

  /**
   * Round trip: however the responder's bytes are cut into blocks, the
   * framed download of a shared file succeeds with exactly its content, and
   * of a missing file fails and writes nothing.
   */
  lemma DownloadFramedRoundTrip(shared: SharedFiles, name: string, addr: string, host: string, port: int,
                                first: Bytes, later: seq<Bytes>)
    requires ParseAddress(addr) == Some((host, port)) && 0 <= port < 65536
    requires Delivers(Response(shared, name), first, later)
    ensures DownloadFramed(name, addr, Accepted(first, later, false))
            == if name in shared then DownloadResult(true, Some(shared[name]))
               else DownloadResult(false, None)
  {
    UntilEmptyOfNonEmpty(later);
    var stream := Response(shared, name);
    assert first + Concat(UntilEmpty(later)) == stream;
    if name in shared {
      assert stream[..2] == OK_TOKEN;
      assert stream[2..] == shared[name];
      assert stream != NOT_FOUND by {
        assert stream[0] != NOT_FOUND[0];
      }
    }
  }
}

=== FILE: index_server.dfy ===
/**
 * The index server's accept loop with the sockets taken away: one decoded
 * request and the current `files_index` in, the new `files_index` and the
 * payloads handed to `conn.send` out.
 */
module IndexServer {
  import opened Base
  import opened JsonValue
  import opened FileIndex
  import Text

  /**
   * The bytes of a request after `.decode()` and `json.loads`: not UTF-8
   * (UnicodeDecodeError), not JSON (JSONDecodeError), JSON that `json.loads`
   * fails on with another exception (the RecursionError of nesting deeper
   * than the interpreter's recursion limit, which a 1024-byte body of `[`
   * reaches before Python 3.12), or a decoded value.
   */
  datatype Request = NotUtf8 | NotJson | TooDeep | Parsed(body: Json)

  /** The payload of one `conn.send` call: a fixed token, or a search result dict. */
  datatype Msg = Token(text: string) | Results(found: Index)

  /** What handling one request leaves behind. */
  datatype Outcome = Outcome(index: Index, sent: seq<Msg>)

  const OK := "OK"
  const INVALID_COMMAND := "Invalid command"
  const INVALID_JSON := "Invalid JSON format"
  const SERVER_ERROR := "Server error"

  /** How far the registration loop got: the index so far, and whether it ran to the end. */
  datatype Progress = Progress(index: Index, completed: bool)

  /**
   * `for f in request['files']: files_index.setdefault(f, []).append(request['ip'])`.
   * `ip` is None when the request has no `ip` member. The loop stops at the
   * first unhashable item (TypeError in `setdefault`, nothing stored) or, when
   * `ip` is missing, right after the first `setdefault` (KeyError).
   */
  function RegisterAll(idx: Index, items: seq<Json>, ip: Option<Json>): (p: Progress)
    requires Valid(idx)
    ensures Valid(p.index) && Extends(idx, p.index)
    decreases |items|
  {
    if |items| == 0 then Progress(idx, true)
    else if !Hashable(items[0]) then Progress(idx, false)
    else
      match ip
      case None => Progress(SetDefault(idx, items[0]), false)
      case Some(a) =>
        var next := Register(idx, items[0], a);
        var p := RegisterAll(next, items[1..], ip);
        ExtendsTransitive(idx, next, p.index);
        p
  }

  /** The `register` branch, including the reply sent before the log line reads `request['ip']`. */
  function HandleRegister(idx: Index, body: Json): (o: Outcome)
    requires Valid(idx)
    ensures Valid(o.index) && Extends(idx, o.index)
  {
    match Field(body, "files")
    case None => Outcome(idx, [Token(SERVER_ERROR)])
    case Some(files) =>
      match Iterate(files)
      case None => Outcome(idx, [Token(SERVER_ERROR)])
      case Some(items) =>
        var ip := Field(body, "ip");
        var p := RegisterAll(idx, items, ip);
        if !p.completed then Outcome(p.index, [Token(SERVER_ERROR)])
        else if ip.None? then Outcome(p.index, [Token(OK), Token(SERVER_ERROR)])
        else Outcome(p.index, [Token(OK)])
  }

  /**
   * The `search` branch. The comprehension evaluates `request['query'] in k`
   * once per key, so on an empty index it never reads `query`; the log line
   * after the reply does, and raises when `query` is missing. On a non-empty
   * index a missing query (KeyError), a non-string query or a non-string key
   * (TypeError) abort before anything is sent.
   */
  function HandleSearch(idx: Index, body: Json): (o: Outcome)
    ensures o.index == idx
  {
    var query := Field(body, "query");
    if |idx| == 0 then
      Outcome(idx, if query.None? then [Results([]), Token(SERVER_ERROR)] else [Results([])])
    else if query.None? || !query.value.JStr? || !StringKeys(idx) then
      Outcome(idx, [Token(SERVER_ERROR)])
    else
      Outcome(idx, [Results(Matching(idx, query.value.s))])
  }

  /**
   * One pass of the accept loop's body: dispatch on `request['command']`;
   * a body that is not JSON gets its own token, and every other exception
   * (UnicodeDecodeError, RecursionError, KeyError, TypeError) becomes
   * `Server error`.
   */
  function Handle(idx: Index, req: Request): (o: Outcome)
    requires Valid(idx)
    ensures Valid(o.index) && Extends(idx, o.index)
    ensures |o.sent| >= 1
    ensures o.index != idx ==> req.Parsed? && Field(req.body, "command") == Some(JStr("register"))
    ensures o.sent[0] == Token(INVALID_JSON) <==> req.NotJson?
    ensures req.NotJson? ==> o == Outcome(idx, [Token(INVALID_JSON)])
    ensures req.NotUtf8? || req.TooDeep? ==> o == Outcome(idx, [Token(SERVER_ERROR)])
    ensures o.sent == [Token(INVALID_COMMAND)]
            <==> req.Parsed? && Field(req.body, "command").Some?
                 && Field(req.body, "command").value !in {JStr("register"), JStr("search")}
  {
    match req
    case NotUtf8 => Outcome(idx, [Token(SERVER_ERROR)])
    case NotJson => Outcome(idx, [Token(INVALID_JSON)])
    case TooDeep => Outcome(idx, [Token(SERVER_ERROR)])
    case Parsed(body) =>
      match Field(body, "command")
      case None => Outcome(idx, [Token(SERVER_ERROR)])
      case Some(cmd) =>
        if cmd == JStr("register") then HandleRegister(idx, body)
        else if cmd == JStr("search") then HandleSearch(idx, body)
        else Outcome(idx, [Token(INVALID_COMMAND)])
  }

  // ---------------------------------------------------------------------------
  // What registration does to the index

  /** How many items Python would file under the same dict entry as `k`. */
  function Occurrences(items: seq<Json>, k: Json): nat
  {
    if |items| == 0 then 0
    else (if SameKey(k, items[0]) then 1 else 0) + Occurrences(items[1..], k)
  }

  /** `n` copies of `a`. */
  function Repeat(a: Json, n: nat): (r: seq<Json>)
    ensures |r| == n && forall i :: 0 <= i < n ==> r[i] == a
  {
    seq(n, _ => a)
  }

  /** With an address present and every item hashable, the loop runs to the end. */
  lemma {:induction false} RegisterAllCompletes(idx: Index, items: seq<Json>, a: Json)
    requires Valid(idx)
    requires forall i :: 0 <= i < |items| ==> Hashable(items[i])
    ensures RegisterAll(idx, items, Some(a)).completed
    decreases |items|
  {
    if |items| > 0 {
      RegisterAllCompletes(Register(idx, items[0], a), items[1..], a);
    }
  }

  /**
   * With an address present and every item hashable, each key's list gains
   * one copy of the address per listing, at its end; the keys afterwards are
   * the old ones plus the listed ones.
   */
  lemma {:induction false} RegisterAllLists(idx: Index, items: seq<Json>, a: Json, j: Json)
    requires Valid(idx)
    requires forall i :: 0 <= i < |items| ==> Hashable(items[i])
    ensures Lookup(RegisterAll(idx, items, Some(a)).index, j)
            == Lookup(idx, j) + Repeat(a, Occurrences(items, j))
    ensures HasKey(RegisterAll(idx, items, Some(a)).index, j)
            <==> HasKey(idx, j) || Occurrences(items, j) > 0
    decreases |items|
  {
    if |items| == 0 {
      assert Repeat(a, 0) == [];
    } else {
      var next := Register(idx, items[0], a);
      RegisterLists(idx, items[0], a, j);
      RegisterAllLists(next, items[1..], a, j);
      var fin := RegisterAll(next, items[1..], Some(a)).index;
      assert RegisterAll(idx, items, Some(a)).index == fin;
      OneMoreListing(idx, next, fin, items, a, j);
    }
  }

  /** The inductive step of the above, for one key. */
  lemma OneMoreListing(idx: Index, next: Index, fin: Index, items: seq<Json>, a: Json, j: Json)
    requires |items| > 0
    requires Lookup(next, j) == Lookup(idx, j) + if SameKey(j, items[0]) then [a] else []
    requires HasKey(next, j) <==> HasKey(idx, j) || SameKey(j, items[0])
    requires Lookup(fin, j) == Lookup(next, j) + Repeat(a, Occurrences(items[1..], j))
    requires HasKey(fin, j) <==> HasKey(next, j) || Occurrences(items[1..], j) > 0
    ensures Lookup(fin, j) == Lookup(idx, j) + Repeat(a, Occurrences(items, j))
    ensures HasKey(fin, j) <==> HasKey(idx, j) || Occurrences(items, j) > 0
  {
    var n := Occurrences(items[1..], j);
    if SameKey(j, items[0]) {
      assert Repeat(a, n + 1) == [a] + Repeat(a, n);
    }
  }

  /** Registering only string filenames keeps every key a string. */
  lemma {:induction false} RegisterAllStringKeys(idx: Index, items: seq<Json>, a: Json)
    requires Valid(idx) && StringKeys(idx)
    requires forall i :: 0 <= i < |items| ==> items[i].JStr?
    ensures StringKeys(RegisterAll(idx, items, Some(a)).index)
    decreases |items|
  {
    if |items| > 0 {
      RegisterAllStringKeys(Register(idx, items[0], a), items[1..], a);
    }
  }

  /**
   * A register request whose `files` is iterable with hashable items and
   * whose `ip` is present is answered with exactly `OK`, and appends the
   * address once per listing of each filename (duplicates included), never
   * removing or reordering what was there.
   */
  lemma RegisterWellFormed(idx: Index, body: Json, items: seq<Json>, a: Json)
    requires Valid(idx)
    requires Field(body, "command") == Some(JStr("register"))
    requires Field(body, "files").Some? && Iterate(Field(body, "files").value) == Some(items)
    requires forall i :: 0 <= i < |items| ==> Hashable(items[i])
    requires Field(body, "ip") == Some(a)
    ensures Handle(idx, Parsed(body)).sent == [Token(OK)]
    ensures Extends(idx, Handle(idx, Parsed(body)).index)
    ensures forall j :: Lookup(Handle(idx, Parsed(body)).index, j)
                        == Lookup(idx, j) + Repeat(a, Occurrences(items, j))
    ensures forall j :: HasKey(Handle(idx, Parsed(body)).index, j)
                        <==> HasKey(idx, j) || Occurrences(items, j) > 0
  {
    RegisterHandled(idx, body, items, a);
    var fin := RegisterAll(idx, items, Some(a)).index;
    forall j
      ensures Lookup(fin, j) == Lookup(idx, j) + Repeat(a, Occurrences(items, j))
      ensures HasKey(fin, j) <==> HasKey(idx, j) || Occurrences(items, j) > 0
    {
      RegisterAllLists(idx, items, a, j);
    }
  }

  /** Such a request runs the loop to the end and replies `OK`. */
  lemma RegisterHandled(idx: Index, body: Json, items: seq<Json>, a: Json)
    requires Valid(idx)
    requires Field(body, "command") == Some(JStr("register"))
    requires Field(body, "files").Some? && Iterate(Field(body, "files").value) == Some(items)
    requires forall i :: 0 <= i < |items| ==> Hashable(items[i])
    requires Field(body, "ip") == Some(a)
    ensures Handle(idx, Parsed(body)) == Outcome(RegisterAll(idx, items, Some(a)).index, [Token(OK)])
  {
    calc {
      Handle(idx, Parsed(body));
      HandleRegister(idx, body);
    == { RegisterAllCompletes(idx, items, a); }
      Outcome(RegisterAll(idx, items, Some(a)).index, [Token(OK)]);
    }
  }

  /** The usual request `{"command": "register", "files": [...], "ip": a}`. */
  function RegisterBody(files: seq<string>, a: Json): Json
  {
    JObj([("command", JStr("register")), ("files", JArr(Names(files))), ("ip", a)])
  }

  /** A list of filenames as JSON strings. */
  function Names(files: seq<string>): (r: seq<Json>)
    ensures |r| == |files| && forall i :: 0 <= i < |files| ==> r[i] == JStr(files[i])
  {
    seq(|files|, i requires 0 <= i < |files| => JStr(files[i]))
  }

  /** The members of that request are found under their names. */
  lemma RegisterBodyFields(files: seq<string>, a: Json)
    ensures Field(RegisterBody(files, a), "command") == Some(JStr("register"))
    ensures Field(RegisterBody(files, a), "files") == Some(JArr(Names(files)))
    ensures Field(RegisterBody(files, a), "ip") == Some(a)
  {
    var ms := RegisterBody(files, a).members;
    assert "files" != "command" && "ip" != "command" && "ip" != "files";
    assert ms[1..][0] == ("files", JArr(Names(files)));
    assert Member(ms, "files") == Member(ms[1..], "files");
    assert ms[1..][1..] == [("ip", a)];
    assert Member(ms, "ip") == Member(ms[1..], "ip") == Member(ms[1..][1..], "ip");
  }

  /** The register request above runs the loop over its names to the end and replies `OK`. */
  lemma RegisterBodyHandled(idx: Index, files: seq<string>, a: Json)
    requires Valid(idx)
    ensures Handle(idx, Parsed(RegisterBody(files, a)))
            == Outcome(RegisterAll(idx, Names(files), Some(a)).index, [Token(OK)])
  {
    var b := RegisterBody(files, a);
    RegisterBodyFields(files, a);
    assert Iterate(Field(b, "files").value) == Some(Names(files));
    RegisterHandled(idx, b, Names(files), a);
  }

  /** The register request above is answered with exactly `OK`. */
  lemma RegisterBodyAnswered(idx: Index, files: seq<string>, a: Json)
    requires Valid(idx)
    ensures Handle(idx, Parsed(RegisterBody(files, a))).sent == [Token(OK)]
  {
    RegisterBodyHandled(idx, files, a);
  }

  /** The register request above, handled: the list under each of its names. */
  lemma RegisterBodyLists(idx: Index, files: seq<string>, a: Json, j: Json)
    requires Valid(idx)
    ensures Handle(idx, Parsed(RegisterBody(files, a))).index
            == RegisterAll(idx, Names(files), Some(a)).index
    ensures Lookup(Handle(idx, Parsed(RegisterBody(files, a))).index, j)
            == Lookup(idx, j) + Repeat(a, Occurrences(Names(files), j))
  {
    RegisterBodyHandled(idx, files, a);
    RegisterAllLists(idx, Names(files), a, j);
  }

  /** Registration accumulates: `a1` then `a2` for a new file gives `[a1, a2]`. */
  lemma RegisterTwiceAccumulates(idx: Index, f: string, a1: Json, a2: Json)
    requires Valid(idx) && !HasKey(idx, JStr(f))
    ensures var o1 := Handle(idx, Parsed(RegisterBody([f], a1)));
            var o2 := Handle(o1.index, Parsed(RegisterBody([f], a2)));
            Lookup(o2.index, JStr(f)) == [a1, a2]
  {
    var k := JStr(f);
    LookupAbsent(idx, k);
    RegisterBodyLists(idx, [f], a1, k);
    var i1 := Handle(idx, Parsed(RegisterBody([f], a1))).index;
    RegisterBodyLists(i1, [f], a2, k);
    Listings(f, a1);
    Listings(f, a2);
  }

  /** One file registered with an empty index makes a one-entry index. */
  lemma FirstRegistration(f: string, a: Json)
    ensures Handle([], Parsed(RegisterBody([f], a))).index == [Entry(JStr(f), [a])]
  {
    calc {
      Handle([], Parsed(RegisterBody([f], a))).index;
    == { RegisterBodyHandled([], [f], a); }
      RegisterAll([], Names([f]), Some(a)).index;
    == { assert Names([f]) == [JStr(f)]; }
      RegisterAll([], [JStr(f)], Some(a)).index;
    == { FirstRegistrationLoop(JStr(f), a); }
      [Entry(JStr(f), [a])];
    }
  }

  lemma FirstRegistrationLoop(f: Json, a: Json)
    requires Hashable(f)
    ensures RegisterAll([], [f], Some(a)).index == [Entry(f, [a])]
  {
    RegisterAllStep([], [f], a);
    var next := Register([], f, a);
    assert !HasKey([], f);
    assert next == [Entry(f, [a])];
    assert [f][1..] == [];
  }

  /**
   * A register whose `files` is a string loops over its characters: each
   * character's list gains the address once per occurrence of that
   * character in the string.
   */
  lemma RegisterStringFiles(idx: Index, body: Json, s: string, a: Json, c: char)
    requires Valid(idx)
    requires Field(body, "command") == Some(JStr("register"))
    requires Field(body, "files") == Some(JStr(s))
    requires Field(body, "ip") == Some(a)
    ensures Handle(idx, Parsed(body)).sent == [Token(OK)]
    ensures Lookup(Handle(idx, Parsed(body)).index, JStr([c]))
            == Lookup(idx, JStr([c])) + Repeat(a, multiset(s)[c])
  {
    var items := Iterate(JStr(s)).value;
    assert forall i :: 0 <= i < |items| ==> Hashable(items[i]);
    RegisterHandled(idx, body, items, a);
    RegisterAllLists(idx, items, a, JStr([c]));
    CharListings(s, c);
  }

  /** Iterating a string lists the one-character string `c` once per occurrence of `c`. */
  lemma {:induction false} CharListings(s: string, c: char)
    ensures Occurrences(Iterate(JStr(s)).value, JStr([c])) == multiset(s)[c]
    decreases |s|
  {
    var items := Iterate(JStr(s)).value;
    if |s| > 0 {
      CharListings(s[1..], c);
      assert items[1..] == Iterate(JStr(s[1..])).value;
      assert SameKey(JStr([c]), items[0]) <==> c == s[0] by {
        assert items[0] == JStr([s[0]]);
        assert [c] == [s[0]] ==> c == s[0] by {
          if [c] == [s[0]] {
            assert [c][0] == [s[0]][0];
          }
        }
      }
      assert s == [s[0]] + s[1..];
      assert multiset(s) == multiset([s[0]]) + multiset(s[1..]);
    }
  }

  /** A filename listed twice in one request receives the address twice. */
  lemma RegisterDuplicateListing(idx: Index, f: string, a: Json)
    requires Valid(idx)
    ensures Lookup(Handle(idx, Parsed(RegisterBody([f, f], a))).index, JStr(f))
            == Lookup(idx, JStr(f)) + [a, a]
  {
    RegisterBodyLists(idx, [f, f], a, JStr(f));
    Listings(f, a);
  }

  lemma Listings(f: string, a: Json)
    ensures Repeat(a, Occurrences(Names([f]), JStr(f))) == [a]
    ensures Repeat(a, Occurrences(Names([f, f]), JStr(f))) == [a, a]
  {
    var k := JStr(f);
    var one := Names([f]);
    assert one == [k];
    assert one[1..] == [];
    assert Occurrences(one, k) == 1;
    assert Repeat(a, 1) == [a];
    var two := Names([f, f]);
    assert two == [k, k];
    assert two[1..] == one;
    assert Occurrences(two, k) == 2;
    assert Repeat(a, 2) == [a, a];
  }

  /**
   * A register without `ip` listing a hashable first item: `setdefault` has
   * already run when `request['ip']` raises, so that item is left in the
   * index (with an empty list if it was new), and the reply is `Server error`.
   * With nothing listed, `OK` goes out first and the log line then raises.
   */
  lemma RegisterMissingIp(idx: Index, body: Json, items: seq<Json>)
    requires Valid(idx)
    requires Field(body, "command") == Some(JStr("register"))
    requires Field(body, "files").Some? && Iterate(Field(body, "files").value) == Some(items)
    requires Field(body, "ip").None?
    ensures |items| == 0 ==> Handle(idx, Parsed(body)) == Outcome(idx, [Token(OK), Token(SERVER_ERROR)])
    ensures |items| > 0 && Hashable(items[0]) && !HasKey(idx, items[0]) ==>
              Handle(idx, Parsed(body)) == Outcome(idx + [Entry(items[0], [])], [Token(SERVER_ERROR)])
    ensures |items| > 0 && (!Hashable(items[0]) || HasKey(idx, items[0])) ==>
              Handle(idx, Parsed(body)) == Outcome(idx, [Token(SERVER_ERROR)])
  {
  }

  /**
   * An unhashable item stops the loop with `Server error`, but what the
   * items before it registered stays.
   */
  lemma RegisterStopsAtUnhashable(idx: Index, body: Json, items: seq<Json>, a: Json, k: nat)
    requires Valid(idx)
    requires Field(body, "command") == Some(JStr("register"))
    requires Field(body, "files").Some? && Iterate(Field(body, "files").value) == Some(items)
    requires Field(body, "ip") == Some(a)
    requires k < |items| && !Hashable(items[k])
    requires forall i :: 0 <= i < k ==> Hashable(items[i])
    ensures Handle(idx, Parsed(body)).sent == [Token(SERVER_ERROR)]
    ensures Handle(idx, Parsed(body)).index == RegisterAll(idx, items[..k], Some(a)).index
  {
    StopsAt(idx, items, a, k);
    calc {
      Handle(idx, Parsed(body));
      HandleRegister(idx, body);
      Outcome(RegisterAll(idx, items, Some(a)).index, [Token(SERVER_ERROR)]);
    }
  }

  lemma {:induction false} StopsAt(idx: Index, items: seq<Json>, a: Json, k: nat)
    requires Valid(idx)
    requires k < |items| && !Hashable(items[k])
    requires forall i :: 0 <= i < k ==> Hashable(items[i])
    ensures !RegisterAll(idx, items, Some(a)).completed
    ensures RegisterAll(idx, items, Some(a)).index == RegisterAll(idx, items[..k], Some(a)).index
    decreases k
  {
    if k == 0 {
      assert RegisterAll(idx, items[..0], Some(a)) == Progress(idx, true);
    } else {
      var next := Register(idx, items[0], a);
      var head := items[..k];
      assert forall i :: 0 <= i < k - 1 ==> items[1..][i] == items[i + 1];
      StopsAt(next, items[1..], a, k - 1);
      RegisterAllStep(idx, items, a);
      calc {
        RegisterAll(idx, items, Some(a)).index;
        RegisterAll(next, items[1..][..k - 1], Some(a)).index;
      == { DropThenTake(items, k); }
        RegisterAll(next, head[1..], Some(a)).index;
      == { assert head[0] == items[0]; RegisterAllStep(idx, head, a); }
        RegisterAll(idx, head, Some(a)).index;
      }
    }
  }

  lemma DropThenTake(items: seq<Json>, k: nat)
    requires 0 < k <= |items|
    ensures items[..k][1..] == items[1..][..k - 1]
  {
  }

  /** One turn of the loop on a hashable item with the address present. */
  lemma RegisterAllStep(idx: Index, items: seq<Json>, a: Json)
    requires Valid(idx) && |items| > 0 && Hashable(items[0])
    ensures RegisterAll(idx, items, Some(a)) == RegisterAll(Register(idx, items[0], a), items[1..], Some(a))
  {
  }

  // ---------------------------------------------------------------------------
  // Search and the error paths

  /**
   * On an index keyed by strings, a search for a string query replies with
   * exactly the entries whose key contains the query, lists untouched and
   * in index order; the empty query returns the whole index; the index
   * itself does not change.
   */
  lemma SearchSelects(idx: Index, body: Json, q: string)
    requires Valid(idx) && StringKeys(idx)
    requires Field(body, "command") == Some(JStr("search"))
    requires Field(body, "query") == Some(JStr(q))
    ensures Handle(idx, Parsed(body)).index == idx
    ensures |Handle(idx, Parsed(body)).sent| == 1 && Handle(idx, Parsed(body)).sent[0].Results?
    ensures forall e :: e in Handle(idx, Parsed(body)).sent[0].found
                        <==> e in idx && Text.Occurs(q, e.key.s)
    ensures IsSubsequence(Handle(idx, Parsed(body)).sent[0].found, idx)
    ensures q == "" ==> Handle(idx, Parsed(body)).sent[0].found == idx
  {
    if q == "" {
      MatchingEmptyQuery(idx);
    }
  }

  /**
   * Any request other than a register leaves the index as it was, so
   * repeating it gets the same reply: two identical searches agree.
   */
  lemma RepeatIsStable(idx: Index, req: Request)
    requires Valid(idx)
    requires !(req.Parsed? && Field(req.body, "command") == Some(JStr("register")))
    ensures Handle(idx, req).index == idx
    ensures Handle(Handle(idx, req).index, req) == Handle(idx, req)
  {
  }

  /**
   * Shape errors: a body that is not a dict or has no `command`, and a
   * register whose `files` is missing or not iterable, get `Server error`
   * and change nothing.
   */
  lemma ShapeErrors(idx: Index, body: Json)
    requires Valid(idx)
    requires || Field(body, "command").None?
             || (Field(body, "command") == Some(JStr("register"))
                 && (Field(body, "files").None? || Iterate(Field(body, "files").value).None?))
    ensures Handle(idx, Parsed(body)) == Outcome(idx, [Token(SERVER_ERROR)])
  {
  }
}

=== FILE: json.dfy ===
/**
 * The decoded JSON values the index server receives, and the Python
 * operations the request handler applies to them: subscripting a dict,
 * iterating a value, hashing a value as a dict key, and `len()`.
 */
module JsonValue {
  import opened Base
  import Text

  /**
   * A value as `json.loads` returns it. Numbers are integers; an object
   * lists the members of the decoded dict in their order, keys distinct.
   */
  datatype Json =
    | JNull
    | JBool(b: bool)
    | JNum(n: int)
    | JStr(s: string)
    | JArr(items: seq<Json>)
    | JObj(members: seq<(string, Json)>)

  /** The value stored under `key` among `members`, if any. */
  function Member(members: seq<(string, Json)>, key: string): (r: Option<Json>)
    ensures r.Some? ==> (key, r.value) in members
    ensures r.None? <==> forall i :: 0 <= i < |members| ==> members[i].0 != key
  {
    if |members| == 0 then None
    else if members[0].0 == key then Some(members[0].1)
    else Member(members[1..], key)
  }

  /**
   * Python's `v[key]` for a string key: a dict yields its member; a missing
   * key (KeyError) and a value that is not a dict (TypeError) both raise.
   */
  function Field(v: Json, key: string): (r: Option<Json>)
    ensures r.Some? ==> v.JObj? && (key, r.value) in v.members
    ensures r.None? <==> !v.JObj? || forall i :: 0 <= i < |v.members| ==> v.members[i].0 != key
  {
    if v.JObj? then Member(v.members, key) else None
  }

  /**
   * What a Python `for` loop visits: a list's items, a string's characters
   * (each a one-character string), a dict's keys; other values raise TypeError.
   */
  function Iterate(v: Json): (r: Option<seq<Json>>)
    ensures r.Some? <==> v.JArr? || v.JStr? || v.JObj?
    ensures v.JArr? ==> r == Some(v.items)
    ensures v.JStr? ==> (r.Some? && |r.value| == |v.s|
                         && forall i :: 0 <= i < |v.s| ==> r.value[i] == JStr([v.s[i]]))
    ensures v.JObj? ==> (r.Some? && |r.value| == |v.members|
                         && forall i :: 0 <= i < |v.members| ==> r.value[i] == JStr(v.members[i].0))
  {
    match v
    case JArr(items) => Some(items)
    case JStr(s) => Some(seq(|s|, i requires 0 <= i < |s| => JStr([s[i]])))
    case JObj(ms) => Some(seq(|ms|, i requires 0 <= i < |ms| => JStr(ms[i].0)))
    case _ => None
  }

  /** Lists and dicts are unhashable; every other JSON value can be a dict key. */
  predicate Hashable(v: Json)
  {
    !v.JArr? && !v.JObj?
  }

  /** The key a value stands for in a Python dict, where `True == 1` and `False == 0`. */
  function Canon(v: Json): Json
  {
    if v.JBool? then JNum(if v.b then 1 else 0) else v
  }

  /** Two values name the same dict entry. */
  predicate SameKey(a: Json, b: Json)
  {
    Canon(a) == Canon(b)
  }

  /** Python's `len(v)` is defined for strings, lists and dicts only. */
  predicate HasLen(v: Json)
  {
    v.JStr? || v.JArr? || v.JObj?
  }

  /** The text `json.dumps` writes for a dict key (non-string keys are converted). */
  function KeyText(k: Json): string
  {
    match k
    case JStr(s) => s
    case JNum(n) => Text.IntToString(n)
    case JBool(b) => if b then "true" else "false"
    case JNull => "null"
    case _ => ""
  }
}

=== FILE: peer_client.dfy ===
/**
 * The peer's client side toward the index server: the register request it
 * builds at startup and how it reads the reply, and the search request with
 * its empty-dict fallback. Each is also run against the server model.
 */
module PeerClient {
  import opened Base
  import opened JsonValue
  import opened FileIndex
  import opened IndexServer
  import opened PeerAddress
  import Text

  /**
   * The dict `register_files` sends: command `register`, the shared file
   * names, and `ip` set to `localhost:<port>`.
   */
  function RegisterRequest(files: seq<string>, port: int): Json
  {
    RegisterBody(files, JStr(Advertised(port)))
  }

  /** What `register_files` logs: success with the number of files, or the failed reply. */
  datatype RegisterLog = Registered(count: nat) | RegisterFailed(reply: Option<string>)

  /**
   * `register_files` after its send: success only when the decoded reply is
   * exactly `OK`. `reply` is None when any step raised.
   */
  function RegisterOutcome(files: seq<string>, reply: Option<string>): (r: RegisterLog)
    ensures r.Registered? <==> reply == Some(OK)
    ensures r.Registered? ==> r.count == |files|
  {
    if reply == Some(OK) then Registered(|files|) else RegisterFailed(reply)
  }

  /** The text on the wire for a reply made of tokens only; a search result dict gives None. */
  function ReplyText(sent: seq<Msg>): (r: Option<string>)
    ensures r.Some? <==> forall i :: 0 <= i < |sent| ==> sent[i].Token?
  {
    if |sent| == 0 then Some("")
    else if !sent[0].Token? then None
    else
      match ReplyText(sent[1..])
      case None => None
      case Some(rest) => Some(sent[0].text + rest)
  }

  /**
   * The peer's startup registration, handled by the server: the reply is
   * exactly `OK`, the client logs success, and every shared name now lists
   * the peer's advertised address last.
   */
  lemma ClientRegistrationAccepted(idx: Index, files: seq<string>, port: int)
    requires Valid(idx)
    ensures Handle(idx, Parsed(RegisterRequest(files, port))).sent == [Token(OK)]
    ensures RegisterOutcome(files, ReplyText(Handle(idx, Parsed(RegisterRequest(files, port))).sent))
            == Registered(|files|)
    ensures forall i :: 0 <= i < |files| ==>
              var l := Lookup(Handle(idx, Parsed(RegisterRequest(files, port))).index, JStr(files[i]));
              |l| > 0 && l[|l| - 1] == JStr(Advertised(port))
  {
    var a := JStr(Advertised(port));
    assert RegisterRequest(files, port) == RegisterBody(files, a);
    RegisterBodyAnswered(idx, files, a);
    ReplyOk();
    forall i | 0 <= i < |files|
      ensures var l := Lookup(Handle(idx, Parsed(RegisterBody(files, a))).index, JStr(files[i]));
              |l| > 0 && l[|l| - 1] == a
    {
      LastListed(idx, files, a, i);
    }
  }

  lemma ReplyOk()
    ensures ReplyText([Token(OK)]) == Some(OK)
  {
    assert ReplyText([Token(OK)][1..]) == Some("");
    assert OK + "" == OK;
  }

  lemma LastListed(idx: Index, files: seq<string>, a: Json, i: nat)
    requires Valid(idx) && i < |files|
    ensures var l := Lookup(Handle(idx, Parsed(RegisterBody(files, a))).index, JStr(files[i]));
            |l| > 0 && l[|l| - 1] == a
  {
    RegisterBodyLists(idx, files, a, JStr(files[i]));
    ListedAtLeastOnce(Names(files), i);
  }

  lemma {:induction false} ListedAtLeastOnce(items: seq<Json>, i: nat)
    requires i < |items|
    ensures Occurrences(items, items[i]) > 0
  {
    if i > 0 {
      ListedAtLeastOnce(items[1..], i - 1);
    }
  }

  /** The dict `search_files` sends. */
  function SearchRequest(q: string): Json
  {
    JObj([("command", JStr("search")), ("query", JStr(q))])
  }

  lemma SearchRequestFields(q: string)
    ensures Field(SearchRequest(q), "command") == Some(JStr("search"))
    ensures Field(SearchRequest(q), "query") == Some(JStr(q))
  {
    var ms := SearchRequest(q).members;
    assert "query" != "command";
    assert Member(ms, "query") == Member(ms[1..], "query");
  }

  /**
   * `json.loads` of the server's reply. Only a lone result dict decodes:
   * the tokens (`OK`, `Invalid command`, ...) are not JSON, and neither is a
   * result dict followed by `Server error`.
   */
  function DecodeReply(sent: seq<Msg>): Option<Json>
  {
    if |sent| == 1 && sent[0].Results? then Some(ToJson(sent[0].found)) else None
  }

  /**
   * `search_files`: the decoded reply, or `{}` when anything raised,
   * including the `len()` in its log line on a value that has none.
   */
  function SearchFiles(reply: Option<Json>): (r: Json)
    ensures reply.Some? && HasLen(reply.value) ==> r == reply.value
    ensures !(reply.Some? && HasLen(reply.value)) ==> r == JObj([])
  {
    match reply
    case None => JObj([])
    case Some(v) => if HasLen(v) then v else JObj([])
  }

  /**
   * A client search against an index of string keys returns the matching
   * entries, each key with its address list, in index order.
   */
  lemma ClientSearchFinds(idx: Index, q: string)
    requires Valid(idx) && StringKeys(idx)
    ensures SearchFiles(DecodeReply(Handle(idx, Parsed(SearchRequest(q))).sent))
            == ToJson(Matching(idx, q))
  {
    SearchRequestFields(q);
    if |idx| == 0 {
      assert Matching(idx, q) == [];
    } else {
      SearchSelects(idx, SearchRequest(q), q);
    }
  }

  /**
   * A peer on port 6001 registers `a.txt` with an empty index, and a search
   * for `a` then finds it at `localhost:6001`.
   */
  lemma ScenarioRegisterThenSearch()
    ensures var reg := Handle([], Parsed(RegisterRequest(["a.txt"], 6001)));
            SearchFiles(DecodeReply(Handle(reg.index, Parsed(SearchRequest("a"))).sent))
            == JObj([("a.txt", JArr([JStr("localhost:6001")]))])
  {
    var a := JStr("localhost:6001");
    Advertised6001();
    FirstRegistration("a.txt", a);
    ScenarioSearch(a);
  }

  lemma Advertised6001()
    ensures Advertised(6001) == "localhost:6001"
  {
    assert Text.IntToString(6001) == "6001" by {
      assert Text.NatToDigits(6) == "6";
      assert Text.NatToDigits(60) == "60";
      assert Text.NatToDigits(600) == "600";
    }
  }

  lemma ScenarioSearch(a: Json)
    ensures SearchFiles(DecodeReply(Handle([Entry(JStr("a.txt"), [a])], Parsed(SearchRequest("a"))).sent))
            == JObj([("a.txt", JArr([a]))])
  {
    var idx := [Entry(JStr("a.txt"), [a])];
    ClientSearchFinds(idx, "a");
    assert Text.Contains("a.txt", "a");
    assert Matching(idx, "a") == idx by {
      assert Matching(idx[1..], "a") == [];
    }
  }
}

=== FILE: text.dfy ===
/**
 * The Python string operations the two scripts rely on: the substring test
 * `q in s`, `str.split(sep)`, `str(n)` for an int and `int(s)` for a str.
 */
module Text {
  import opened Base

  /** `q` occurs in `s` as a contiguous run (the meaning of Python's `q in s`). */
  ghost predicate Occurs(q: string, s: string)
  {
    exists i :: 0 <= i <= |s| && q <= s[i..]
  }

  /** Python's `q in s` on two strings, as a left-to-right scan. */
  function Contains(s: string, q: string): bool
  {
    if q <= s then true
    else if |s| == 0 then false
    else Contains(s[1..], q)
  }

  /** The scan answers exactly the substring question, in both directions. */
  lemma {:induction false} ContainsIsOccurs(s: string, q: string)
    ensures Contains(s, q) <==> Occurs(q, s)
  {
    assert s[0..] == s;
    if |s| > 0 {
      ContainsIsOccurs(s[1..], q);
      forall i | 1 <= i <= |s|
        ensures s[i..] == s[1..][i - 1..]
      {
      }
    }
  }

  // ---------------------------------------------------------------------------
  // str.split(sep)

  /** Python's `s.split(sep)` for a one-character separator: the runs between separators. */
  function Split(s: string, sep: char): (r: seq<string>)
    ensures |r| >= 1
  {
    if |s| == 0 then [""]
    else
      var rest := Split(s[1..], sep);
      if s[0] == sep then [""] + rest
      else [[s[0]] + rest[0]] + rest[1..]
  }

  /** Python's `sep.join(pieces)`. */
  function Join(pieces: seq<string>, sep: char): string
  {
    if |pieces| == 0 then ""
    else if |pieces| == 1 then pieces[0]
    else pieces[0] + [sep] + Join(pieces[1..], sep)
  }

  /** Joining the pieces back with the separator gives the original string. */
  lemma {:induction false} JoinSplit(s: string, sep: char)
    ensures Join(Split(s, sep), sep) == s
  {
    if |s| > 0 {
      var rest := Split(s[1..], sep);
      JoinSplit(s[1..], sep);
      if s[0] == sep {
        assert ([""] + rest)[1..] == rest;
      } else if |rest| > 1 {
        assert ([[s[0]] + rest[0]] + rest[1..])[1..] == rest[1..];
      }
    }
  }

  /** No piece of a split contains the separator. */
  lemma {:induction false} SplitPiecesFree(s: string, sep: char)
    ensures forall i :: 0 <= i < |Split(s, sep)| ==> sep !in Split(s, sep)[i]
  {
    if |s| > 0 {
      SplitPiecesFree(s[1..], sep);
      var rest := Split(s[1..], sep);
      var r := Split(s, sep);
      if s[0] == sep {
        assert forall i :: 1 <= i < |r| ==> r[i] == rest[i - 1];
      } else {
        assert r[0] == [s[0]] + rest[0];
        assert forall i :: 1 <= i < |r| ==> r[i] == rest[i];
      }
    }
  }

  /** A separator-free prefix sticks to the first piece of what follows it. */
  lemma {:induction false} SplitFreePrefix(a: string, t: string, sep: char)
    requires sep !in a
    ensures Split(a + t, sep) == [a + Split(t, sep)[0]] + Split(t, sep)[1..]
  {
    if |a| > 0 {
      assert (a + t)[1..] == a[1..] + t;
      assert (a + t)[0] == a[0];
      SplitFreePrefix(a[1..], t, sep);
      assert [a[0]] + (a[1..] + Split(t, sep)[0]) == a + Split(t, sep)[0];
    } else {
      assert a + t == t;
      assert a + Split(t, sep)[0] == Split(t, sep)[0];
      assert Split(t, sep) == [Split(t, sep)[0]] + Split(t, sep)[1..];
    }
  }

  /** Splitting a join of separator-free pieces recovers the pieces. */
  lemma {:induction false} SplitJoin(pieces: seq<string>, sep: char)
    requires |pieces| >= 1
    requires forall i :: 0 <= i < |pieces| ==> sep !in pieces[i]
    ensures Split(Join(pieces, sep), sep) == pieces
  {
    if |pieces| == 1 {
      SplitFreePrefix(pieces[0], "", sep);
      assert pieces[0] + "" == pieces[0];
    } else {
      var tail := Join(pieces[1..], sep);
      SplitJoin(pieces[1..], sep);
      assert ([sep] + tail)[1..] == tail;
      assert Split([sep] + tail, sep) == [""] + pieces[1..];
      assert pieces[0] + [sep] + tail == pieces[0] + ([sep] + tail);
      SplitFreePrefix(pieces[0], [sep] + tail, sep);
      assert pieces[0] + "" == pieces[0];
      assert ([""] + pieces[1..])[1..] == pieces[1..];
    }
  }

  // ---------------------------------------------------------------------------
  // str(n) and int(s)

  predicate IsDigit(c: char)
  {
    '0' <= c <= '9'
  }

  function DigitValue(c: char): nat
    requires IsDigit(c)
  {
    c as int - '0' as int
  }

  function DigitChar(d: nat): (c: char)
    requires d < 10
    ensures IsDigit(c) && DigitValue(c) == d
  {
    ('0' as int + d) as char
  }

  /**
   * The characters CPython's `Py_UNICODE_ISSPACE` accepts: the ASCII ones
   * below, the separators U+001C..U+001F and the non-ASCII Unicode spaces.
   */
  predicate IsUnicodeSpace(c: char)
  {
    var u := c as int;
    || (0x09 <= u <= 0x0D) || (0x1C <= u <= 0x20)
    || u == 0x85 || u == 0xA0 || u == 0x1680
    || (0x2000 <= u <= 0x200A)
    || u == 0x2028 || u == 0x2029 || u == 0x202F || u == 0x205F || u == 0x3000
  }

  /** The characters `PyLong_FromString` skips around a number: tab, LF, VT, FF, CR and space. */
  predicate IsAsciiSpace(c: char)
  {
    var u := c as int;
    (0x09 <= u <= 0x0D) || u == 0x20
  }

  predicate IsAscii(s: string)
  {
    forall i :: 0 <= i < |s| ==> s[i] as int < 0x80
  }

  /** The characters `int()` skips around a number: the ASCII whitespace and the non-ASCII Unicode spaces. */
  predicate IsIntSpace(c: char)
  {
    IsAsciiSpace(c) || (c as int >= 0x80 && IsUnicodeSpace(c))
  }

  predicate AllIntSpace(w: string)
  {
    forall i :: 0 <= i < |w| ==> IsIntSpace(w[i])
  }

  /**
   * The first step of `int()` on a str: a pure-ASCII string is used as it
   * is; in any other string each non-ASCII Unicode space becomes `' '`, and
   * every ASCII character, U+001C..U+001F included, is kept unchanged.
   */
  function SpacesToAscii(s: string): (r: string)
    ensures |r| == |s|
    ensures IsAscii(s) ==> r == s
    ensures forall i :: 0 <= i < |s| && s[i] as int < 0x80 ==> r[i] == s[i]
    ensures forall i :: 0 <= i < |s| && s[i] as int >= 0x80 ==> r[i] == if IsUnicodeSpace(s[i]) then ' ' else s[i]
  {
    if IsAscii(s) then s
    else seq(|s|, i requires 0 <= i < |s| => if s[i] as int >= 0x80 && IsUnicodeSpace(s[i]) then ' ' else s[i])
  }

  function TrimStart(s: string): string
  {
    if |s| > 0 && IsAsciiSpace(s[0]) then TrimStart(s[1..]) else s
  }

  function TrimEnd(s: string): string
  {
    if |s| > 0 && IsAsciiSpace(s[|s| - 1]) then TrimEnd(s[..|s| - 1]) else s
  }

  /**
   * The body of a decimal literal as `int()` accepts it: ASCII digits, with
   * single underscores allowed between two digits.
   */
  predicate DigitRun(d: string)
  {
    && |d| > 0
    && IsDigit(d[0])
    && IsDigit(d[|d| - 1])
    && (forall i :: 0 <= i < |d| ==> IsDigit(d[i]) || d[i] == '_')
    && (forall i :: 0 <= i < |d| - 1 ==> d[i] != '_' || d[i + 1] != '_')
  }

  /** The number a run of digits denotes, underscores ignored. */
  function RunValue(d: string): nat
    requires forall i :: 0 <= i < |d| ==> IsDigit(d[i]) || d[i] == '_'
  {
    if |d| == 0 then 0
    else if d[|d| - 1] == '_' then RunValue(d[..|d| - 1])
    else RunValue(d[..|d| - 1]) * 10 + DigitValue(d[|d| - 1])
  }

  function ParseDigits(d: string): Option<nat>
  {
    if DigitRun(d) then Some(RunValue(d)) else None
  }

  /**
   * Python's `int(s)` on a str in base 10: spaces mapped as above, then
   * surrounding ASCII whitespace skipped, an optional sign, then a digit run;
   * anything else raises ValueError (None).
   */
  function ParseInt(s: string): Option<int>
  {
    var t := TrimEnd(TrimStart(SpacesToAscii(s)));
    if |t| > 0 && t[0] == '-' then
      match ParseDigits(t[1..])
      case None => None
      case Some(n) => var v: int := n; Some(-v)
    else if |t| > 0 && t[0] == '+' then
      match ParseDigits(t[1..])
      case None => None
      case Some(n) => Some(n)
    else
      match ParseDigits(t)
      case None => None
      case Some(n) => Some(n)
  }

  /** Decimal digits of a natural number, most significant first. */
  function NatToDigits(n: nat): (s: string)
    ensures |s| > 0
    ensures forall i :: 0 <= i < |s| ==> IsDigit(s[i])
  {
    if n < 10 then [DigitChar(n)] else NatToDigits(n / 10) + [DigitChar(n % 10)]
  }

  /** Python's `str(n)` (and `f'{n}'`) for an int. */
  function IntToString(n: int): string
  {
    if n < 0 then "-" + NatToDigits(-n) else NatToDigits(n)
  }

  lemma {:induction false} DigitsValue(n: nat)
    ensures RunValue(NatToDigits(n)) == n
  {
    var s := NatToDigits(n);
    if n >= 10 {
      DigitsValue(n / 10);
      assert s[..|s| - 1] == NatToDigits(n / 10);
    } else {
      assert s[..|s| - 1] == [];
    }
  }

  /** `str(n)` never contains the separator used by peer addresses. */
  lemma IntToStringHasNoColon(n: int)
    ensures ':' !in IntToString(n)
  {
    var s := IntToString(n);
    forall i | 0 <= i < |s|
      ensures s[i] != ':'
    {
      if n < 0 && i > 0 {
        assert s[i] == NatToDigits(-n)[i - 1];
      }
    }
  }

  /** `int(str(n)) == n` for every int `n`. */
  lemma {:induction false} ParseIntOfString(n: int)
    ensures ParseInt(IntToString(n)) == Some(n)
  {
    var s := IntToString(n);
    var m: nat := if n < 0 then -n else n;
    IntToStringTrimmed(n);
    ParseDigitsOfDigits(m);
    if n < 0 {
      assert s[0] == '-' && s[1..] == NatToDigits(m);
    } else {
      assert s == NatToDigits(m) && IsDigit(s[0]);
    }
  }

  /** `str(n)` is ASCII and neither starts nor ends with whitespace. */
  lemma IntToStringAscii(n: int)
    ensures IsAscii(IntToString(n))
    ensures !IsAsciiSpace(IntToString(n)[0]) && !IsAsciiSpace(IntToString(n)[|IntToString(n)| - 1])
  {
    var s := IntToString(n);
    forall i | 0 <= i < |s| ensures s[i] as int < 0x80 && s[i] != ':' && !IsAsciiSpace(s[i]) {
      if n < 0 && i > 0 {
        assert s[i] == NatToDigits(-n)[i - 1];
      }
    }
  }

  lemma IntToStringTrimmed(n: int)
    ensures TrimEnd(TrimStart(SpacesToAscii(IntToString(n)))) == IntToString(n)
  {
    var s := IntToString(n);
    IntToStringAscii(n);
    assert TrimStart(s) == s;
  }

  lemma ParseDigitsOfDigits(m: nat)
    ensures ParseDigits(NatToDigits(m)) == Some(m)
  {
    DigitsValue(m);
    assert DigitRun(NatToDigits(m));
  }

  /** Leading ASCII whitespace is dropped up to the first other character. */
  lemma {:induction false} TrimStartSpaces(w: string, t: string)
    requires forall i :: 0 <= i < |w| ==> IsAsciiSpace(w[i])
    requires |t| > 0 && !IsAsciiSpace(t[0])
    ensures TrimStart(w + t) == t
  {
    if |w| > 0 {
      assert (w + t)[1..] == w[1..] + t;
      TrimStartSpaces(w[1..], t);
    } else {
      assert w + t == t;
    }
  }

  /** Trailing ASCII whitespace is dropped back to the last other character. */
  lemma {:induction false} TrimEndSpaces(t: string, w: string)
    requires forall i :: 0 <= i < |w| ==> IsAsciiSpace(w[i])
    requires |t| > 0 && !IsAsciiSpace(t[|t| - 1])
    ensures TrimEnd(t + w) == t
  {
    if |w| > 0 {
      assert (t + w)[..|t + w| - 1] == t + w[..|w| - 1];
      TrimEndSpaces(t, w[..|w| - 1]);
    } else {
      assert t + w == t;
    }
  }

  /** `TrimEnd` keeps a first character that is not whitespace. */
  lemma {:induction false} TrimEndKeepsFirst(t: string)
    requires |t| > 0 && !IsAsciiSpace(t[0])
    ensures |TrimEnd(t)| > 0 && TrimEnd(t)[0] == t[0]
  {
    if IsAsciiSpace(t[|t| - 1]) {
      TrimEndKeepsFirst(t[..|t| - 1]);
    }
  }

  /**
   * `int()` reads any integer's decimal text back through whitespace on
   * either side: tab, LF, VT, FF, CR, space and the non-ASCII Unicode spaces
   * such as U+00A0, in any mix.
   */
  lemma IntSkipsWhitespace(w1: string, n: int, w2: string)
    requires AllIntSpace(w1) && AllIntSpace(w2)
    ensures ParseInt(w1 + IntToString(n) + w2) == Some(n)
  {
    var d := IntToString(n);
    IntToStringAscii(n);
    var r := SpacesToAscii(w1 + d + w2);
    SpacesAround(w1, d, w2);
    assert r == r[..|w1|] + d + r[|w1| + |d|..];
    TrimAround(r[..|w1|], d, r[|w1| + |d|..]);
    ParseIntOfString(n);
    IntToStringTrimmed(n);
  }

  /** Mapping spaces turns the padding into ASCII whitespace and keeps an ASCII middle. */
  lemma SpacesAround(w1: string, d: string, w2: string)
    requires AllIntSpace(w1) && AllIntSpace(w2) && IsAscii(d)
    ensures var r := SpacesToAscii(w1 + d + w2);
      && (forall i :: 0 <= i < |w1| ==> IsAsciiSpace(r[i]))
      && r[|w1|..|w1| + |d|] == d
      && (forall i :: |w1| + |d| <= i < |r| ==> IsAsciiSpace(r[i]))
  {
    var s := w1 + d + w2;
    var r := SpacesToAscii(s);
    forall i | 0 <= i < |w1| ensures IsAsciiSpace(r[i]) {
      assert s[i] == w1[i];
    }
    forall i | |w1| + |d| <= i < |r| ensures IsAsciiSpace(r[i]) {
      assert s[i] == w2[i - |w1| - |d|];
    }
    forall i | 0 <= i < |d| ensures r[|w1| + i] == d[i] {
      assert s[|w1| + i] == d[i];
    }
  }

  /** Trimming whitespace padding gives back a middle that neither starts nor ends with whitespace. */
  lemma TrimAround(p: string, d: string, q: string)
    requires forall i :: 0 <= i < |p| ==> IsAsciiSpace(p[i])
    requires forall i :: 0 <= i < |q| ==> IsAsciiSpace(q[i])
    requires |d| > 0 && !IsAsciiSpace(d[0]) && !IsAsciiSpace(d[|d| - 1])
    ensures TrimEnd(TrimStart(p + d + q)) == d
  {
    assert p + d + q == p + (d + q);
    TrimStartSpaces(p, d + q);
    TrimEndSpaces(d, q);
  }

  /**
   * `int()` never skips the separators U+001C..U+001F: whatever follows a
   * leading separator, `int()` raises.
   */
  lemma IntKeepsSeparators(c: char, s: string)
    requires 0x1C <= c as int <= 0x1F
    ensures ParseInt([c] + s) == None
  {
    var m := SpacesToAscii([c] + s);
    assert m[0] == c;
    assert TrimStart(m) == m;
    TrimEndKeepsFirst(m);
  }
}
